=== FILE: README.md ===
# Settings registry and logging bookkeeping of the license-plate gate system

This project models the two pieces of bookkeeping logic in the system's
configuration and logging layers, and proves what they promise.

**Settings registry** (`settings.dfy`, module `Settings`). There are ten
registered categories: camera, detection, ocr, database, gui, logging,
performance, validation, export and development. Each maps to a key/value
table that is updated in place.

- `Registry` is a class holding the tables.
- `get_setting` becomes the pure `Lookup`, read through `Registry.Get`. It
  falls back to the caller's default.
- `update_setting` becomes `Registry.Update`. It writes one entry and reports
  whether the category is registered.
- `validate_settings` becomes `Registry.Validate` and `CheckValues`. They
  append one problem per failing check, in check order. Python compares a bool
  as 0 or 1. A value that is not a number makes the comparison raise a
  TypeError, and the model returns that as an error result.

**Logging bookkeeping** (`logger.dfy`, module `Logger`).

- The console formatter's level-name colouring (`FormatLevelName`).
- `set_log_level` (`LoggerManager.SetLogLevel`). It resolves a level name
  case-insensitively, then sets the root level and retunes only the handlers
  that write to stdout.
- The retention sweep of `cleanup_old_logs` (`LoggerManager.CleanupOldLogs`).
  It deletes every `*.log*` file older than `now - days*86400` seconds and
  carries on past files whose deletion fails.
- The lazily created module-level manager (`LoggingModule`).

Library objects are modelled as plain values:

- a handler is a (stream, level) pair;
- the log directory is a sequence of (name, mtime, removal-fails) entries;
- the clock, today's date and the outcome of creating each file handler are
  parameters.

`wrappers.dfy` holds the shared `Option` and `Result` types.

## Model

| member | source | states |
|---|---|---|
| Settings.CategoryNameRoundTrip | config/settings.py:431-442 | each of the ten categories is found under its registered name |
| Settings.RegisteredIffNamed | config/settings.py:444 | a name is registered iff it is one of the ten category names, and then it names that category |
| Settings.LookupUnregistered | config/settings.py:444-446 | `get_setting` on a category outside the ten names returns the supplied default |
| Settings.Registry.Get | config/settings.py:429-446 | `get_setting` on the registry: the default (None unless given) for a name that is not one of the ten; for a registered category, the stored value when the key is present, otherwise the default |
| Settings.LookupRegistered | config/settings.py:444-445 | on a registered category: the stored value when the key is present, otherwise the default |
| Settings.Registry.Update | config/settings.py:448-466 | returns true iff the category is registered; if so, that one entry is set; otherwise every table is unchanged; the registry stays well formed |
| Settings.LookupAfterStore | config/settings.py:445-465 | reading back an entry just written gives the new value, whatever the default |
| Settings.StoreFrame | config/settings.py:464 | a write leaves every other (category, key) reading as before |
| Settings.StorePreservesShape | config/settings.py:464 | a write keeps all ten tables and the keys the validator reads; it adds at most the written key |
| Settings.MessagesDistinct | config/settings.py:474-485 | the four messages differ from each other, so a problem list fixes a message list |
| Settings.Messages | config/settings.py:474-485 | one message per problem, position by position |
| Settings.MessageListedIff | config/settings.py:474-485 | a message is in the returned list iff its problem was found |
| Settings.AppendInCheckOrder | config/settings.py:470-487 | appending what a later check reports keeps the list in check order |
| Settings.ReportsInCheckOrder | config/settings.py:470-487 | the report lists problems in check order: database directory, detection threshold, OCR threshold, FPS |
| Settings.ReportsMeaning | config/settings.py:470-487 | each problem is reported iff its check fails, in check order (database, detection, OCR, FPS); the list is empty iff all checks pass |
| Settings.CheckValues | config/settings.py:472-487 | a non-numeric checked value raises a TypeError naming the first such key; otherwise the result is the report of the failing checks, with thresholds outside [0, 1] and FPS <= 0 flagged |
| Settings.Registry.Validate | config/settings.py:468-487 | raises iff one of the three numeric values it checks is non-numeric, naming the first; otherwise the detection/OCR message is present iff the threshold lies outside [0, 1], the FPS message iff `default_fps <= 0`, the database message iff the directory is missing; the list is exactly the report of the failing checks, in check order; reads the tables without changing them |
| Settings.Registry.ValidateSettings | config/settings.py:468-487 | the value `validate_settings` returns: a TypeError iff one of the three numeric values is non-numeric, as above; otherwise the messages of the failing checks in check order, each message present iff its check fails |
| Settings.Registry.constructor | config/settings.py:28-423 | the registry starts as the shipped tables, well formed |
| Settings.ShippedDefaultsPass | config/settings.py:45-151 | the shipped 0.5, 0.3 and 30 are numeric and pass their range checks |
| Settings.ShippedDefaultsValidateClean | config/settings.py:468-487 | a fresh registry with an existing database directory validates to an empty list of messages |
| Logger.FormatLevelName | src/utils/logger.py:21-35 | the record's level name becomes its `Colorize` rewrite: colour + name + reset for a key of the colour table, unchanged otherwise (so by ColorizeIdempotent a second pass changes nothing) |
| Logger.ColoredNameIsNotKey | src/utils/logger.py:21-35 | a coloured name starts with the escape character and is not a key of the colour table |
| Logger.ColorizeIdempotent | src/utils/logger.py:32-35 | rewriting a level name twice equals rewriting it once |
| Logger.ToUpperIdempotent | src/utils/logger.py:119 | upper-casing twice equals upper-casing once |
| Logger.ResolveIgnoresCase | src/utils/logger.py:118-119 | a level name resolves exactly as its upper-case spelling does |
| Logger.LowerCaseNamesResolve | src/utils/logger.py:118-119 | "debug" resolves to DEBUG (10) and "Info" to INFO (20) |
| Logger.ResolvedNameIsStandard | src/utils/logger.py:119 | a name that resolves gives one of the six standard level values |
| Logger.WithStdoutLevelAt | src/utils/logger.py:124-126 | handler by handler: the stream is kept; the level becomes the new one iff the stream is stdout, otherwise it is kept |
| Logger.WithStdoutLevelLastWins | src/utils/logger.py:121-126 | setting a level twice leaves the handlers as setting the second one alone does |
| Logger.FileHandlersKeepLevels | src/utils/logger.py:82-126 | after any level change the two file handlers stay at DEBUG and ERROR; only the console handler takes the new level |
| Logger.LoggerManager.constructor | src/utils/logger.py:43-106 | root at DEBUG; handlers are the file handler (DEBUG), the error handler (ERROR), each when it could be created, then the stdout console (INFO) |
| Logger.LoggerManager.SetLogLevel | src/utils/logger.py:116-126 | an unknown name fails and changes nothing; otherwise the root takes the resolved level and exactly the stdout handlers are retuned |
| Logger.ContainsDotLogIffInfix | src/utils/logger.py:135 | the name test for the `*.log*` pattern holds iff ".log" occurs somewhere in the name |
| Logger.MatchesLogPatternIff | src/utils/logger.py:135 | a name is listed by `*.log*` iff it is non-empty, does not start with '.' (glob skips hidden files) and contains ".log" |
| Logger.LoggerManager.CleanupOldLogs | src/utils/logger.py:128-150 | the directory afterwards holds the survivors; the removed and failed names are reported in listing order; 30 days by default |
| Logger.SurvivorsExactly | src/utils/logger.py:137-144 | a file survives iff it is not an expired `*.log*` file (mtime strictly below `now - days*86400`) or its deletion fails |
| Logger.RemovedNamesExactly | src/utils/logger.py:140-147 | a name is reported removed iff some expired file with that name could be deleted, whatever failed elsewhere |
| Logger.FailedNamesExactly | src/utils/logger.py:140-147 | a name is reported as a failed removal iff some expired `*.log*` file with that name could not be deleted |
| Logger.FailedAreSurvivors | src/utils/logger.py:140-147 | every name reported as failed belongs to an expired file still in the directory after the sweep |
| Logger.RemovedAreGone | src/utils/logger.py:140-145 | an expired file whose deletion succeeds is absent from the directory afterwards, and its name is reported removed |
| Logger.SweepPartitions | src/utils/logger.py:140-147 | the number of files kept plus the number reported removed equals the number listed; there are no more failures than files kept |
| Logger.SweepIdempotent | src/utils/logger.py:137-144 | a second sweep with the same cutoff removes nothing |
| Logger.LoggingModule.EnsureManager | src/utils/logger.py:168-171 | a manager is created only when none exists; an existing one is reused unchanged |
| Logger.LoggingModule.SetupLogger | src/utils/logger.py:157-187 | creates or reuses the manager, applies the level (default INFO) and returns the given name or the caller's module name; an unknown level fails, with the unknown name as the error, after the manager exists, leaving it unchanged |
| Logger.LoggingModule.GetLogger | src/utils/logger.py:190-205 | with no manager: creates it and applies INFO, so the root and the stdout handlers move to INFO; with a manager: leaves it unchanged; either way returns the given name or, when omitted, the logger module's own name |
| Logger.LoggingModule.SetDebugMode | src/utils/logger.py:208-221 | creates or reuses the manager and sets DEBUG when enabled (the default), INFO otherwise |
| Logger.LoggingModule.CleanupLogs | src/utils/logger.py:224-236 | creates the manager in its initial state (root DEBUG, initial handlers) or reuses the existing one, then performs its retention sweep (30 days by default) on the log directory |

## Left out

- `src/main.py`: GUI start-up, directory creation and dependency probing, all I/O.
- Import-time directory creation in `config/settings.py` and the `__main__` printout.
- `reset_to_defaults`: an empty stub with no behaviour.
- The database-directory existence check in `validate_settings` is the input `dbDirExists`. The `db_path` entry itself depends on the install location and is not reproduced.
- Settings.Registry.Validate / Settings.Registry.ValidateSettings: a `db_path` that is not a path, such as None or an int written by `update_setting`, makes the program raise a TypeError when it builds the path at config/settings.py:473, before any numeric check. `dbDirExists` does not capture that raise: the model's error result covers only the three numeric values.
- Settings.Defaults: only a selection of each category's keys is reproduced. It includes every key the validator reads, with its shipped value.
- Float comparisons use exact reals. NaN and rounding are not modelled.
- Settings.Registry.Get: returns the stored value. The source returns the stored object itself, so a caller can change a list or dict setting in place without `update_setting`; that aliasing is not modelled.
- Logger.ToUpper: upper-cases ASCII letters only, unlike Python's `str.upper`, which also maps other letters (for example 'ı' to 'I').
- Logger.ResolveLevel: any attribute of the logging module other than the eight upper-case level names counts as unknown, since none of them is a usable level.
- Logger.FormatLevelName: `super().format` and the `hasattr` test are not modelled. A log record always has a level name.
- Handler creation, rotation, formatters and the actual writing of log records are not modelled. In particular the log directory does not gain today's `lpr_system_*.log` and `lpr_errors_*.log` when a manager is created, so a `CleanupLogs` that creates the manager never lists or deletes those two files (which the program could do with `days_to_keep <= 0`).
- The `log_*` helpers call `get_logger` (modelled as `GetLogger`) and then emit a record; emitting, and the "Logger initialized" record of `setup_logger`, are not modelled.
- The `inspect` lookup of the caller's module name is the parameter `callerModule`; the logger module's own `__name__`, which depends on how it was imported, is the parameter `ownModule`.
- The clock, today's date and `os.path.getmtime` are parameters. So is the order in which glob lists files.
- Logger.LoggerManager.CleanupOldLogs: times and `days_to_keep` are integers (seconds and days). `time.time()` and `os.path.getmtime` return floats and `days_to_keep` may be fractional, so comparisons finer than a second are not modelled. The clock `now` comes first in the parameter list because `days_to_keep` has a default.
- Logger.MatchesLogPattern: matching is case-sensitive, as glob is on POSIX systems; on Windows glob also lists names such as `X.LOG`.
- Logger.InitialHandlers: one `date` names both log files. The source reads the current date separately for each name, so the two names can differ when the manager is created at midnight.
- A failure while reading a file's modification time, and the outer try around the whole sweep, are not modelled. A failing deletion is.
- The printed "Removed"/"Error removing" lines are the returned `removed` and `failed` name lists.
- Logger.LoggerManager: the root logger's level and handler list are modelled as fields of the manager, not as shared global state of the logging library.

=== FILE: logger.dfy ===
/**
 * The bookkeeping rules of the system's logging set-up: the colouring of
 * level names on the console, the update of handler levels, the retention
 * rule that deletes old log files, and the lazily created global manager.
 *
 * The logging library itself is modelled abstractly: a handler is a stream
 * and a level, a log directory is a sequence of (name, modification time)
 * entries, each with a flag saying whether deleting it fails.
 */
module Logger {
  import opened Wrappers

  // The numeric levels of the logging library.
  const NOTSET: int := 0
  const DEBUG: int := 10
  const INFO: int := 20
  const WARNING: int := 30
  const ERROR: int := 40
  const CRITICAL: int := 50

  /** The upper-case level names the logging library defines, with their values. */
  const LevelNames: map<string, int> :=
    map["CRITICAL" := CRITICAL, "FATAL" := CRITICAL, "ERROR" := ERROR, "WARNING" := WARNING,
        "WARN" := WARNING, "INFO" := INFO, "DEBUG" := DEBUG, "NOTSET" := NOTSET]

  // ---------------------------------------------------------------------------
  // ColoredFormatter: level-name colouring
  // ---------------------------------------------------------------------------

  const Esc: char := '\U{1B}'

  /** ANSI colour codes per level name; "RESET" is a key like the others. */
  const Colors: map<string, string> :=
    map["DEBUG" := "\U{1B}[36m", "INFO" := "\U{1B}[32m", "WARNING" := "\U{1B}[33m",
        "ERROR" := "\U{1B}[31m", "CRITICAL" := "\U{1B}[35m", "RESET" := "\U{1B}[0m"]

  /** The level name after the formatter's rewrite. */
  function Colorize(name: string): string {
    if name in Colors then Colors[name] + name + Colors["RESET"] else name
  }

  /** The part of a log record the colouring formatter touches. */
  class LogRecord {
    var levelName: string

    constructor (levelName: string)
      ensures this.levelName == levelName
    {
      this.levelName := levelName;
    }
  }

  /**
   * The level-name rewrite of `ColoredFormatter.format`, which overwrites the
   * record's level name in place before the standard formatting.
   */
  method FormatLevelName(record: LogRecord)
    modifies record
    ensures record.levelName == Colorize(old(record.levelName))
    ensures old(record.levelName) in Colors ==>
      record.levelName == Colors[old(record.levelName)] + old(record.levelName) + Colors["RESET"]
    ensures old(record.levelName) !in Colors ==> record.levelName == old(record.levelName)
  {
    if record.levelName in Colors {
      var colored := Colors[record.levelName] + record.levelName + Colors["RESET"];
      record.levelName := colored;
    }
  }

  /** A coloured name starts with the escape character, which no key of Colors does, so it is not a key. */
  lemma ColoredNameIsNotKey(name: string)
    requires name in Colors
    ensures Colorize(name)[0] == Esc
    ensures Colorize(name) !in Colors
  {
    assert Colors[name][0] == Esc;
    assert Colorize(name) == Colors[name] + (name + Colors["RESET"]);
    forall k | k in Colors
      ensures |k| > 0 && k[0] != Esc
    {
    }
  }

  /** Rewriting a level name twice gives the same name as rewriting it once. */
  lemma ColorizeIdempotent(name: string)
    ensures Colorize(Colorize(name)) == Colorize(name)
  {
    if name in Colors {
      ColoredNameIsNotKey(name);
    }
  }

  // ---------------------------------------------------------------------------
  // Level names
  // ---------------------------------------------------------------------------

  /** A level passed to `set_log_level`: a number, or a name looked up case-insensitively. */
  datatype LevelArg = Numeric(n: int) | Named(name: string)

  /** Looking up an unknown name on the logging module raises an AttributeError. */
  datatype LevelError = UnknownLevel(name: string)

  function UpperChar(c: char): char {
    if 'a' <= c <= 'z' then (c as int - 32) as char else c
  }

  /** `str.upper()` on ASCII letters. */
  function ToUpper(s: string): (u: string)
    ensures |u| == |s|
  {
    if s == [] then [] else [UpperChar(s[0])] + ToUpper(s[1..])
  }

  /** Upper-casing twice is upper-casing once. */
  lemma {:induction false} ToUpperIdempotent(s: string)
    ensures ToUpper(ToUpper(s)) == ToUpper(s)
  {
    if s != [] {
      ToUpperIdempotent(s[1..]);
      assert ToUpper(s)[1..] == ToUpper(s[1..]);
    }
  }

  /** The level value `set_log_level` uses: a number as given, a name upper-cased and looked up. */
  function ResolveLevel(arg: LevelArg): Result<int, LevelError> {
    match arg
    case Numeric(n) => Ok(n)
    case Named(s) =>
      var upper := ToUpper(s);
      if upper in LevelNames then Ok(LevelNames[upper]) else Err(UnknownLevel(upper))
  }

  /** Case does not matter: a name resolves exactly as its upper-case spelling does. */
  lemma ResolveIgnoresCase(s: string)
    ensures ResolveLevel(Named(s)) == ResolveLevel(Named(ToUpper(s)))
  {
    ToUpperIdempotent(s);
  }

  /** A name that resolves gives one of the six standard level values. */
  lemma ResolvedNameIsStandard(s: string)
    ensures ResolveLevel(Named(s)).Ok? ==>
      ResolveLevel(Named(s)).value in {NOTSET, DEBUG, INFO, WARNING, ERROR, CRITICAL}
  {
  }

  /** Lower- and mixed-case spellings resolve: "debug" gives DEBUG and "Info" gives INFO. */
  lemma LowerCaseNamesResolve()
    ensures ResolveLevel(Named("debug")) == Ok(DEBUG)
    ensures ResolveLevel(Named("Info")) == Ok(INFO)
  {
    assert ToUpper("debug") == "DEBUG";
    assert ToUpper("Info") == "INFO";
  }

  // ---------------------------------------------------------------------------
  // Handlers
  // ---------------------------------------------------------------------------

  /** Where a handler writes. Every handler here is a stream handler (file handlers included). */
  datatype Stream = Stdout | Stderr | FileStream(path: string)

  datatype Handler = Handler(stream: Stream, level: int)

  /** One handler after `set_log_level(level)`: only a handler writing to stdout takes the new level. */
  function Retune(h: Handler, level: int): Handler {
    if h.stream == Stdout then h.(level := level) else h
  }

  /** All handlers after `set_log_level(level)`. */
  function WithStdoutLevel(hs: seq<Handler>, level: int): (r: seq<Handler>)
    ensures |r| == |hs|
  {
    if hs == [] then [] else [Retune(hs[0], level)] + WithStdoutLevel(hs[1..], level)
  }

  /** Handler by handler: same streams, and only stdout handlers change level. */
  lemma {:induction false} WithStdoutLevelAt(hs: seq<Handler>, level: int, k: nat)
    requires k < |hs|
    ensures WithStdoutLevel(hs, level)[k] == Retune(hs[k], level)
    ensures WithStdoutLevel(hs, level)[k].stream == hs[k].stream
    ensures WithStdoutLevel(hs, level)[k].level ==
      if hs[k].stream == Stdout then level else hs[k].level
  {
    if k > 0 {
      WithStdoutLevelAt(hs[1..], level, k - 1);
    } else if |hs| > 1 {
      WithStdoutLevelAt(hs[1..], level, 0);
    }
  }

  /** Setting the level twice leaves the handlers as setting only the second level does. */
  lemma {:induction false} WithStdoutLevelLastWins(hs: seq<Handler>, first: int, second: int)
    ensures WithStdoutLevel(WithStdoutLevel(hs, first), second) == WithStdoutLevel(hs, second)
  {
    if hs != [] {
      WithStdoutLevelLastWins(hs[1..], first, second);
      assert WithStdoutLevel(hs, first)[1..] == WithStdoutLevel(hs[1..], first);
    }
  }

  function LogPath(date: string): string {
    "data/logs/lpr_system_" + date + ".log"
  }

  function ErrorLogPath(date: string): string {
    "data/logs/lpr_errors_" + date + ".log"
  }

  /**
   * The root logger's handlers as the manager installs them: the rotating
   * file handler at DEBUG and the error file handler at ERROR (each only if
   * it could be created), then the stdout console handler at INFO.
   */
  function InitialHandlers(date: string, fileHandlerOk: bool, errorHandlerOk: bool): seq<Handler> {
    (if fileHandlerOk then [Handler(FileStream(LogPath(date)), DEBUG)] else [])
    + (if errorHandlerOk then [Handler(FileStream(ErrorLogPath(date)), ERROR)] else [])
    + [Handler(Stdout, INFO)]
  }

  /** Whatever level is set, the two file handlers keep DEBUG and ERROR; only the console follows. */
  lemma FileHandlersKeepLevels(date: string, level: int)
    ensures WithStdoutLevel(InitialHandlers(date, true, true), level) ==
      [Handler(FileStream(LogPath(date)), DEBUG),
       Handler(FileStream(ErrorLogPath(date)), ERROR),
       Handler(Stdout, level)]
  {
    var main, errors, console :=
      Handler(FileStream(LogPath(date)), DEBUG), Handler(FileStream(ErrorLogPath(date)), ERROR), Handler(Stdout, INFO);
    var hs := InitialHandlers(date, true, true);
    assert hs == [main, errors, console];
    assert hs[1..] == [errors, console];
    assert hs[1..][1..] == [console];
    assert hs[1..][1..][1..] == [];
    assert WithStdoutLevel([console], level) == [Handler(Stdout, level)];
    assert WithStdoutLevel([errors, console], level) == [errors, Handler(Stdout, level)];
  }

  // ---------------------------------------------------------------------------
  // Log retention
  // ---------------------------------------------------------------------------

  /** A file in the log directory; `removalFails` says that deleting it raises. */
  datatype LogFile = LogFile(name: string, mtime: int, removalFails: bool)

  /** The name contains ".log". */
  function ContainsDotLog(s: string): bool {
    if |s| < 4 then false else s[..4] == ".log" || ContainsDotLog(s[1..])
  }

  /** ".log" occurs in `s` at position `i`. */
  predicate DotLogAt(s: string, i: int) {
    0 <= i && i + 4 <= |s| && s[i..i + 4] == ".log"
  }

  /** The recursive test agrees with "some position holds .log". */
  lemma {:induction false} ContainsDotLogIffInfix(s: string)
    ensures ContainsDotLog(s) <==> exists i :: DotLogAt(s, i)
  {
    if |s| >= 4 {
      ContainsDotLogIffInfix(s[1..]);
      if s[..4] == ".log" {
        assert DotLogAt(s, 0);
      }
      if ContainsDotLog(s[1..]) {
        var i :| DotLogAt(s[1..], i);
        assert s[1..][i..i + 4] == s[i + 1..i + 1 + 4];
        assert DotLogAt(s, i + 1);
      }
      if exists i :: DotLogAt(s, i) {
        var i :| DotLogAt(s, i);
        if i > 0 {
          assert s[1..][i - 1..i - 1 + 4] == s[i..i + 4];
          assert DotLogAt(s[1..], i - 1);
        } else {
          assert s[..4] == s[i..i + 4];
        }
      }
    }
  }

  /** The pattern "*.log*": a name containing ".log" that is not hidden (does not start with '.'). */
  predicate MatchesLogPattern(name: string) {
    |name| > 0 && name[0] != '.' && ContainsDotLog(name)
  }

  /** A name is listed by "*.log*" exactly when it is not hidden and ".log" occurs in it. */
  lemma MatchesLogPatternIff(name: string)
    ensures MatchesLogPattern(name) <==> |name| > 0 && name[0] != '.' && exists i :: DotLogAt(name, i)
  {
    ContainsDotLogIffInfix(name);
  }

  /** Files older than `days` days before `now`, in seconds, are due for removal. */
  function Cutoff(now: int, days: int): int {
    now - days * 24 * 60 * 60
  }

  /** The file is listed by the pattern and older than the cutoff. */
  predicate Expired(f: LogFile, cutoff: int) {
    MatchesLogPattern(f.name) && f.mtime < cutoff
  }

  /** The file disappears: expired, and its deletion succeeds. */
  predicate Removed(f: LogFile, cutoff: int) {
    Expired(f, cutoff) && !f.removalFails
  }

  /** The files left in the directory after the sweep, in directory order. */
  function Survivors(fs: seq<LogFile>, cutoff: int): seq<LogFile> {
    if fs == [] then []
    else Survivors(fs[..|fs| - 1], cutoff)
         + (if Removed(fs[|fs| - 1], cutoff) then [] else [fs[|fs| - 1]])
  }

  /** The names reported as removed, in directory order. */
  function RemovedNames(fs: seq<LogFile>, cutoff: int): seq<string> {
    if fs == [] then []
    else RemovedNames(fs[..|fs| - 1], cutoff)
         + (if Removed(fs[|fs| - 1], cutoff) then [fs[|fs| - 1].name] else [])
  }

  /** The names reported as failed removals, in directory order. */
  function FailedNames(fs: seq<LogFile>, cutoff: int): seq<string> {
    if fs == [] then []
    else FailedNames(fs[..|fs| - 1], cutoff)
         + (if Expired(fs[|fs| - 1], cutoff) && fs[|fs| - 1].removalFails then [fs[|fs| - 1].name] else [])
  }

  /** A file survives exactly when it is not expired or its deletion fails. */
  lemma {:induction false} SurvivorsExactly(fs: seq<LogFile>, cutoff: int, f: LogFile)
    ensures f in Survivors(fs, cutoff) <==> f in fs && !Removed(f, cutoff)
  {
    if fs != [] {
      var init := fs[..|fs| - 1];
      SurvivorsExactly(init, cutoff, f);
      assert fs == init + [fs[|fs| - 1]];
    }
  }

  /**
   * A name is reported removed exactly when some expired file of that name
   * could be deleted, whatever happened to the other files.
   */
  lemma {:induction false} RemovedNamesExactly(fs: seq<LogFile>, cutoff: int, n: string)
    ensures n in RemovedNames(fs, cutoff) <==> exists f :: f in fs && f.name == n && Removed(f, cutoff)
  {
    if fs != [] {
      var init, last := fs[..|fs| - 1], fs[|fs| - 1];
      RemovedNamesExactly(init, cutoff, n);
      assert fs == init + [last];
      if n in RemovedNames(fs, cutoff) && n !in RemovedNames(init, cutoff) {
        assert last in fs && last.name == n && Removed(last, cutoff);
      }
    }
  }

  /**
   * A name is reported as a failed removal exactly when some expired file of
   * that name could not be deleted.
   */
  lemma {:induction false} FailedNamesExactly(fs: seq<LogFile>, cutoff: int, n: string)
    ensures n in FailedNames(fs, cutoff) <==>
      exists f :: f in fs && f.name == n && Expired(f, cutoff) && f.removalFails
  {
    if fs != [] {
      var init, last := fs[..|fs| - 1], fs[|fs| - 1];
      FailedNamesExactly(init, cutoff, n);
      assert fs == init + [last];
      if n in FailedNames(fs, cutoff) && n !in FailedNames(init, cutoff) {
        assert last in fs && last.name == n && Expired(last, cutoff) && last.removalFails;
      }
    }
  }

  /** Every name reported failed belongs to a file still in the directory after the sweep. */
  lemma FailedAreSurvivors(fs: seq<LogFile>, cutoff: int, n: string)
    requires n in FailedNames(fs, cutoff)
    ensures exists f :: f in Survivors(fs, cutoff) && f.name == n && Expired(f, cutoff)
  {
    FailedNamesExactly(fs, cutoff, n);
    var f :| f in fs && f.name == n && Expired(f, cutoff) && f.removalFails;
    SurvivorsExactly(fs, cutoff, f);
  }

  /** An expired file whose deletion succeeds is gone afterwards, and its name is reported removed. */
  lemma RemovedAreGone(fs: seq<LogFile>, cutoff: int, f: LogFile)
    requires f in fs && Removed(f, cutoff)
    ensures f !in Survivors(fs, cutoff)
    ensures f.name in RemovedNames(fs, cutoff)
  {
    SurvivorsExactly(fs, cutoff, f);
    RemovedNamesExactly(fs, cutoff, f.name);
  }

  /** Kept files and removed names together number the listed files; failures never outnumber the kept files. */
  lemma {:induction false} SweepPartitions(fs: seq<LogFile>, cutoff: int)
    ensures |Survivors(fs, cutoff)| + |RemovedNames(fs, cutoff)| == |fs|
    ensures |FailedNames(fs, cutoff)| <= |Survivors(fs, cutoff)|
  {
    if fs != [] {
      SweepPartitions(fs[..|fs| - 1], cutoff);
    }
  }

  /** A second sweep with the same cutoff deletes nothing more. */
  lemma {:induction false} SweepIdempotent(fs: seq<LogFile>, cutoff: int)
    ensures Survivors(Survivors(fs, cutoff), cutoff) == Survivors(fs, cutoff)
    ensures RemovedNames(Survivors(fs, cutoff), cutoff) == []
  {
    if fs != [] {
      var init, last := fs[..|fs| - 1], fs[|fs| - 1];
      SweepIdempotent(init, cutoff);
      var s := Survivors(init, cutoff);
      if Removed(last, cutoff) {
        assert Survivors(fs, cutoff) == s + [];
        assert s + [] == s;
      } else {
        var t := s + [last];
        assert Survivors(fs, cutoff) == t;
        assert t[..|t| - 1] == s && t[|t| - 1] == last;
        assert Survivors(t, cutoff) == Survivors(s, cutoff) + [last];
        assert RemovedNames(t, cutoff) == RemovedNames(s, cutoff) + [];
      }
    }
  }

  /** The log directory: its entries in listing order. */
  class LogDirectory {
    var files: seq<LogFile>

    constructor (files: seq<LogFile>)
      ensures this.files == files
    {
      this.files := files;
    }
  }

  // ---------------------------------------------------------------------------
  // LoggerManager
  // ---------------------------------------------------------------------------

  /** The root logger as the manager configures it, and the directory its files go to. */
  class LoggerManager {
    var rootLevel: int
    var handlers: seq<Handler>
    const logDirectory: LogDirectory

    /**
     * `LoggerManager()`: the root logger at DEBUG with its handlers replaced.
     * The outcome of creating each rotating file handler is an input.
     */
    constructor (date: string, fileHandlerOk: bool, errorHandlerOk: bool, dir: LogDirectory)
      ensures rootLevel == DEBUG
      ensures handlers == InitialHandlers(date, fileHandlerOk, errorHandlerOk)
      ensures logDirectory == dir
    {
      rootLevel := DEBUG;
      handlers := InitialHandlers(date, fileHandlerOk, errorHandlerOk);
      logDirectory := dir;
    }

    /**
     * `set_log_level(level)`: the root level and the level of every stdout
     * handler become the resolved level; an unknown name changes nothing.
     */
    method SetLogLevel(arg: LevelArg) returns (r: Result<int, LevelError>)
      modifies this
      ensures r == ResolveLevel(arg)
      ensures r.Err? ==> rootLevel == old(rootLevel) && handlers == old(handlers)
      ensures r.Ok? ==> rootLevel == r.value && handlers == WithStdoutLevel(old(handlers), r.value)
    {
      r := ResolveLevel(arg);
      if r.Err? {
        return;
      }
      var level := r.value;
      rootLevel := level;
      var i := 0;
      while i < |handlers|
        invariant 0 <= i <= |handlers| == |old(handlers)|
        invariant rootLevel == level
        invariant forall k :: 0 <= k < i ==> handlers[k] == Retune(old(handlers)[k], level)
        invariant forall k :: i <= k < |handlers| ==> handlers[k] == old(handlers)[k]
      {
        if handlers[i].stream == Stdout {
          handlers := handlers[i := handlers[i].(level := level)];
        }
        i := i + 1;
      }
      forall k | 0 <= k < |handlers|
        ensures handlers[k] == WithStdoutLevel(old(handlers), level)[k]
      {
        WithStdoutLevelAt(old(handlers), level, k);
      }
    }

    /**
     * `cleanup_old_logs(days_to_keep)` at time `now`: deletes every listed
     * file older than the cutoff, carrying on past files whose deletion
     * fails. Returns the names reported removed and the names reported failed.
     */
    method CleanupOldLogs(now: int, daysToKeep: int := 30) returns (removed: seq<string>, failed: seq<string>)
      modifies logDirectory
      ensures logDirectory.files == Survivors(old(logDirectory.files), Cutoff(now, daysToKeep))
      ensures removed == RemovedNames(old(logDirectory.files), Cutoff(now, daysToKeep))
      ensures failed == FailedNames(old(logDirectory.files), Cutoff(now, daysToKeep))
    {
      var cutoff := now - daysToKeep * 24 * 60 * 60;
      var listing := logDirectory.files;
      var kept: seq<LogFile> := [];
      removed, failed := [], [];
      var i := 0;
      while i < |listing|
        invariant 0 <= i <= |listing|
        invariant kept == Survivors(listing[..i], cutoff)
        invariant removed == RemovedNames(listing[..i], cutoff)
        invariant failed == FailedNames(listing[..i], cutoff)
      {
        var f := listing[i];
        assert listing[..i + 1][..i] == listing[..i];
        if MatchesLogPattern(f.name) && f.mtime < cutoff {
          if f.removalFails {
            failed := failed + [f.name];
            kept := kept + [f];
          } else {
            removed := removed + [f.name];
          }
        } else {
          kept := kept + [f];
        }
        i := i + 1;
      }
      assert listing[..i] == listing;
      logDirectory.files := kept;
    }
  }

  // ---------------------------------------------------------------------------
  // The module-level manager, created on first use
  // ---------------------------------------------------------------------------

  /** What creating a manager or naming a logger depends on outside the model. */
  datatype Environment = Environment(
    date: string,            // today's date, as it appears in the log file names
    fileHandlerOk: bool,     // the main rotating file handler can be created
    errorHandlerOk: bool,    // the error rotating file handler can be created
    callerModule: string,    // module name of the code calling `setup_logger`
    ownModule: string)       // the logger module's own `__name__`

  /** The logger module's global state: `_logger_manager`, and the log directory on disk. */
  class LoggingModule {
    var manager: LoggerManager?
    const logDirectory: LogDirectory

    ghost predicate Valid()
      reads this
    {
      manager != null ==> manager.logDirectory == logDirectory
    }

    constructor (dir: LogDirectory)
      ensures Valid() && manager == null && logDirectory == dir
    {
      manager := null;
      logDirectory := dir;
    }

    /** `if _logger_manager is None: _logger_manager = LoggerManager()`. */
    method EnsureManager(env: Environment)
      requires Valid()
      modifies this
      ensures Valid() && manager != null
      ensures old(manager) != null ==> manager == old(manager)
      ensures old(manager) == null ==>
        && fresh(manager)
        && manager.rootLevel == DEBUG
        && manager.handlers == InitialHandlers(env.date, env.fileHandlerOk, env.errorHandlerOk)
    {
      if manager == null {
        manager := new LoggerManager(env.date, env.fileHandlerOk, env.errorHandlerOk, logDirectory);
      }
    }

    /**
     * `setup_logger(name, log_level)`: creates the manager if there is none,
     * applies the level, and returns the logger name (the caller's module
     * name when none is given). An unknown level name raises after the
     * manager exists, leaving it as it was.
     */
    method SetupLogger(env: Environment, name: Option<string> := None, level: LevelArg := Numeric(INFO))
      returns (r: Result<string, LevelError>)
      requires Valid()
      modifies this, manager
      ensures Valid() && manager != null
      ensures old(manager) != null ==> manager == old(manager)
      ensures old(manager) == null ==> fresh(manager)
      ensures r.Err? <==> ResolveLevel(level).Err?
      ensures r.Err? ==> r.error == ResolveLevel(level).error
      ensures r.Err? ==>
        && manager.rootLevel == (if old(manager) == null then DEBUG else old(manager.rootLevel))
        && manager.handlers == (
          if old(manager) == null then InitialHandlers(env.date, env.fileHandlerOk, env.errorHandlerOk)
          else old(manager.handlers))
      ensures r.Ok? ==> r.value == (if name.Some? then name.value else env.callerModule)
      ensures r.Ok? ==> manager.rootLevel == ResolveLevel(level).value
      ensures r.Ok? ==> manager.handlers == WithStdoutLevel(
        if old(manager) == null then InitialHandlers(env.date, env.fileHandlerOk, env.errorHandlerOk)
        else old(manager.handlers),
        ResolveLevel(level).value)
    {
      EnsureManager(env);
      var applied := manager.SetLogLevel(level);
      if applied.Err? {
        return Err(applied.error);
      }
      r := Ok(if name.Some? then name.value else env.callerModule);
    }

    /**
     * `get_logger(name)`: with no manager this is `setup_logger(name)`, which
     * creates the manager and applies its INFO default, and the caller whose
     * module name it looks up is `get_logger` itself; with a manager it only
     * names a logger. An omitted name becomes the logger module's own name.
     */
    method GetLogger(env: Environment, name: Option<string> := None) returns (r: Result<string, LevelError>)
      requires Valid()
      modifies this
      ensures Valid() && manager != null
      ensures r == Ok(if name.Some? then name.value else env.ownModule)
      ensures old(manager) != null ==>
        && manager == old(manager)
        && manager.rootLevel == old(manager.rootLevel)
        && manager.handlers == old(manager.handlers)
      ensures old(manager) == null ==>
        && fresh(manager)
        && manager.rootLevel == INFO
        && manager.handlers == WithStdoutLevel(
             InitialHandlers(env.date, env.fileHandlerOk, env.errorHandlerOk), INFO)
    {
      if manager == null {
        r := SetupLogger(env.(callerModule := env.ownModule), name);
      } else {
        r := Ok(if name.Some? then name.value else env.ownModule);
      }
    }

    /** `set_debug_mode(enabled)`: DEBUG when enabled, INFO otherwise, on the one manager. */
    method SetDebugMode(env: Environment, enabled: bool := true)
      requires Valid()
      modifies this, manager
      ensures Valid() && manager != null
      ensures old(manager) != null ==> manager == old(manager)
      ensures old(manager) == null ==> fresh(manager)
      ensures manager.rootLevel == (if enabled then DEBUG else INFO)
      ensures manager.handlers == WithStdoutLevel(
        if old(manager) == null then InitialHandlers(env.date, env.fileHandlerOk, env.errorHandlerOk)
        else old(manager.handlers),
        if enabled then DEBUG else INFO)
    {
      EnsureManager(env);
      var applied := manager.SetLogLevel(Numeric(if enabled then DEBUG else INFO));
    }

    /** `cleanup_logs(days_to_keep)` at time `now`, through the one manager. */
    method CleanupLogs(env: Environment, now: int, daysToKeep: int := 30)
      returns (removed: seq<string>, failed: seq<string>)
      requires Valid()
      modifies this, logDirectory
      ensures Valid() && manager != null
      ensures old(manager) != null ==> manager == old(manager)
      ensures old(manager) == null ==> fresh(manager)
      ensures old(manager) == null ==>
        && manager.rootLevel == DEBUG
        && manager.handlers == InitialHandlers(env.date, env.fileHandlerOk, env.errorHandlerOk)
      ensures logDirectory.files == Survivors(old(logDirectory.files), Cutoff(now, daysToKeep))
      ensures removed == RemovedNames(old(logDirectory.files), Cutoff(now, daysToKeep))
      ensures failed == FailedNames(old(logDirectory.files), Cutoff(now, daysToKeep))
    {
      EnsureManager(env);
      removed, failed := manager.CleanupOldLogs(now, daysToKeep);
    }
  }
}

=== FILE: settings.dfy ===
/**
 * The settings registry of the license-plate recognition system.
 *
 * Ten registered categories ("camera", "detection", ...) each map to a mutable
 * key/value table. Settings are read with a fallback default, written one
 * entry at a time, and checked by a validator that reports range violations
 * as an ordered list of messages.
 */
module Settings {
  import opened Wrappers

  /** A setting value, as the dynamically typed tables hold it. */
  datatype Value =
    | NoneV
    | BoolV(b: bool)
    | IntV(i: int)
    | RealV(r: real)
    | StrV(s: string)
    | ListV(items: seq<Value>)
    | TupleV(items: seq<Value>)
    | DictV(entries: map<string, Value>)

  type Table = map<string, Value>

  /** The ten registered categories. */
  datatype Category =
    | Camera | Detection | Ocr | Database | Gui
    | Logging | Performance | Validation | Export | Development

  /** Category to that category's table. */
  type Tables = map<Category, Table>

  /** The name each category is registered under. */
  function CategoryName(c: Category): string {
    match c
    case Camera => "camera"
    case Detection => "detection"
    case Ocr => "ocr"
    case Database => "database"
    case Gui => "gui"
    case Logging => "logging"
    case Performance => "performance"
    case Validation => "validation"
    case Export => "export"
    case Development => "development"
  }

  /** The registry's `category in categories` test: the category registered under a name, if any. */
  function CategoryNamed(name: string): Option<Category> {
    if name == "camera" then Some(Camera)
    else if name == "detection" then Some(Detection)
    else if name == "ocr" then Some(Ocr)
    else if name == "database" then Some(Database)
    else if name == "gui" then Some(Gui)
    else if name == "logging" then Some(Logging)
    else if name == "performance" then Some(Performance)
    else if name == "validation" then Some(Validation)
    else if name == "export" then Some(Export)
    else if name == "development" then Some(Development)
    else None
  }

  /** Every category is found under its own name. */
  lemma CategoryNameRoundTrip(c: Category)
    ensures CategoryNamed(CategoryName(c)) == Some(c)
  {
    match c
    case Camera =>
    case Detection =>
    case Ocr =>
    case Database =>
    case Gui =>
    case Logging =>
    case Performance =>
    case Validation =>
    case Export =>
    case Development =>
  }

  /** A name is registered exactly when it is the name of one of the ten categories. */
  lemma RegisteredIffNamed(name: string)
    ensures CategoryNamed(name).Some? ==> CategoryName(CategoryNamed(name).value) == name
    ensures CategoryNamed(name).None? <==> forall c: Category :: CategoryName(c) != name
  {
    if CategoryNamed(name).None? {
      forall c: Category
        ensures CategoryName(c) != name
      {
        CategoryNameRoundTrip(c);
      }
    }
  }

  /** Raised by the validator when a checked value cannot be compared with a number. */
  datatype SettingsError = TypeError(key: string)

  // The three keys the validator reads, and where they live.
  const ConfidenceThreshold: string := "confidence_threshold"  // in Detection
  const MinConfidence: string := "min_confidence"              // in Ocr
  const DefaultFps: string := "default_fps"                    // in Camera

  /** The problems the validator reports, declared in the order its checks run. */
  datatype Problem = DbDirMissing | DetectionRange | OcrRange | FpsNotPositive

  /** The message the validator appends for each problem. */
  function Message(p: Problem): string {
    match p
    case DbDirMissing => "Database directory does not exist"
    case DetectionRange => "Detection confidence threshold must be between 0 and 1"
    case OcrRange => "OCR confidence threshold must be between 0 and 1"
    case FpsNotPositive => "Camera FPS must be positive"
  }

  /** Different problems carry different messages, so the list of messages determines the problems. */
  lemma MessagesDistinct(p: Problem, q: Problem)
    ensures Message(p) == Message(q) <==> p == q
  {
    assert |Message(DbDirMissing)| == 33;
    assert |Message(DetectionRange)| == 54;
    assert |Message(OcrRange)| == 48;
    assert |Message(FpsNotPositive)| == 27;
  }

  /** The list of messages `validate_settings` returns for a list of problems. */
  function Messages(problems: seq<Problem>): (r: seq<string>)
    ensures |r| == |problems|
    ensures forall i :: 0 <= i < |problems| ==> r[i] == Message(problems[i])
  {
    if problems == [] then [] else [Message(problems[0])] + Messages(problems[1..])
  }

  /** A message is in the returned list exactly when its problem was found. */
  lemma MessageListedIff(problems: seq<Problem>, p: Problem)
    ensures Message(p) in Messages(problems) <==> p in problems
  {
    var r := Messages(problems);
    if Message(p) in r {
      var i :| 0 <= i < |r| && r[i] == Message(p);
      MessagesDistinct(p, problems[i]);
    }
    if p in problems {
      var i :| 0 <= i < |problems| && problems[i] == p;
      assert r[i] == Message(p);
    }
  }

  /** The registry's shape: a table for every category, holding the keys the validator indexes. */
  ghost predicate WellFormed(t: Tables) {
    && (forall c: Category :: c in t)
    && ConfidenceThreshold in t[Detection]
    && MinConfidence in t[Ocr]
    && DefaultFps in t[Camera]
  }

  /**
   * The numeric view of a value when it is compared with a number: ints and
   * floats as themselves, a bool as 1 or 0; any other value makes the
   * comparison raise a TypeError (None).
   */
  function AsNumber(v: Value): Option<real> {
    match v
    case BoolV(b) => Some(if b then 1.0 else 0.0)
    case IntV(i) => Some(i as real)
    case RealV(r) => Some(r)
    case _ => None
  }

  /** A confidence value passes the range check `0 <= v <= 1`. */
  ghost predicate ThresholdOk(v: Value) {
    AsNumber(v).Some? && 0.0 <= AsNumber(v).value <= 1.0
  }

  /** A frame rate passes the check `not (v <= 0)`. */
  ghost predicate FpsOk(v: Value) {
    AsNumber(v).Some? && AsNumber(v).value > 0.0
  }

  /** The first checked key, in check order, whose value is not a number. */
  ghost function NonNumericKey(t: Tables): Option<string>
    requires WellFormed(t)
  {
    if AsNumber(t[Detection][ConfidenceThreshold]).None? then Some(ConfidenceThreshold)
    else if AsNumber(t[Ocr][MinConfidence]).None? then Some(MinConfidence)
    else if AsNumber(t[Camera][DefaultFps]).None? then Some(DefaultFps)
    else None
  }

  /** Position of a problem's check in the validator. */
  function CheckRank(p: Problem): nat {
    match p
    case DbDirMissing => 0
    case DetectionRange => 1
    case OcrRange => 2
    case FpsNotPositive => 3
  }

  /** The problems appear in check order, each at most once. */
  ghost predicate InCheckOrder(errors: seq<Problem>) {
    forall i, j :: 0 <= i < j < |errors| ==> CheckRank(errors[i]) < CheckRank(errors[j])
  }

  /** Every problem listed comes from a check that runs before check number `k`. */
  ghost predicate RanksBelow(errors: seq<Problem>, k: nat) {
    forall i :: 0 <= i < |errors| ==> CheckRank(errors[i]) < k
  }

  /** `p` when its check fails, nothing otherwise. */
  function Flag(p: Problem, fails: bool): seq<Problem> {
    if fails then [p] else []
  }

  /** Appending what a later check reports keeps the list in check order. */
  lemma AppendInCheckOrder(errors: seq<Problem>, p: Problem, fails: bool)
    requires InCheckOrder(errors) && RanksBelow(errors, CheckRank(p))
    ensures InCheckOrder(errors + Flag(p, fails))
    ensures RanksBelow(errors + Flag(p, fails), CheckRank(p) + 1)
  {
    if !fails {
      assert errors + Flag(p, fails) == errors;
    }
  }

  /** `get_setting` on given tables: the stored value, or the default when the category or key is absent. */
  function Lookup(t: Tables, category: string, key: string, default: Value := NoneV): Value {
    match CategoryNamed(category)
    case None => default
    case Some(c) => if c in t && key in t[c] then t[c][key] else default
  }

  /** `update_setting` on a registered category: that one entry set to the new value. */
  function Store(t: Tables, c: Category, key: string, value: Value): Tables
    requires c in t
  {
    t[c := t[c][key := value]]
  }

  /** The tables as shipped (only a selection of each category's keys is reproduced). */
  function Defaults(): Tables {
    map[
      Camera := map[
        "default_camera_index" := IntV(0),
        "default_resolution" := TupleV([IntV(640), IntV(480)]),
        "default_fps" := IntV(30),
        "min_fps" := IntV(10),
        "max_fps" := IntV(60),
        "frame_buffer_size" := IntV(1),
        "capture_timeout" := RealV(5.0)],
      Detection := map[
        "confidence_threshold" := RealV(0.5),
        "nms_threshold" := RealV(0.4),
        "max_detections_per_frame" := IntV(10),
        "yolo_model_path" := StrV("yolov8n.pt"),
        "use_gpu" := BoolV(false),
        "target_plate_width" := IntV(520),
        "target_plate_height" := IntV(110)],
      Ocr := map[
        "languages" := ListV([StrV("en")]),
        "min_text_length" := IntV(3),
        "max_text_length" := IntV(15),
        "min_confidence" := RealV(0.3),
        "allowed_characters" := StrV("ABCDEFGHIJKLMNOPQRSTUVWXYZ0123456789")],
      Database := map[
        "enable_backup" := BoolV(true),
        "max_backups" := IntV(10),
        "retention_days" := IntV(30)],
      Gui := map[
        "window_title" := StrV("License Plate Recognition System"),
        "window_width" := IntV(1200),
        "window_height" := IntV(800),
        "admin_password" := NoneV],
      Logging := map[
        "log_filename" := StrV("license_plate_recognition.log"),
        "backup_count" := IntV(5),
        "console_level" := StrV("INFO"),
        "file_level" := StrV("DEBUG"),
        "module_levels" := DictV(map[
          "camera" := StrV("INFO"), "detection" := StrV("INFO"), "ocr" := StrV("INFO"),
          "database" := StrV("INFO"), "gui" := StrV("WARNING")])],
      Performance := map[
        "max_concurrent_detections" := IntV(2),
        "processing_queue_size" := IntV(10),
        "skip_frames" := IntV(0)],
      Validation := map[
        "min_valid_characters" := IntV(3),
        "max_valid_characters" := IntV(10),
        "min_ocr_confidence" := RealV(0.2)],
      Export := map[
        "default_format" := StrV("csv"),
        "json_indent" := IntV(2)],
      Development := map[
        "debug_mode" := BoolV(false),
        "test_mode" := BoolV(false)]
    ]
  }

  /** The module-level category tables, updated in place. */
  class Registry {
    var tables: Tables

    ghost predicate Valid()
      reads this
    {
      WellFormed(tables)
    }

    constructor ()
      ensures Valid() && tables == Defaults()
    {
      tables := Defaults();
      ShippedDefaultsPass();
    }

    /** `get_setting(category, key, default)`. */
    function Get(category: string, key: string, default: Value := NoneV): (r: Value)
      reads this
      ensures (forall c: Category :: CategoryName(c) != category) ==> r == default
      ensures forall c: Category :: CategoryName(c) == category && c in tables ==>
        r == (if key in tables[c] then tables[c][key] else default)
    {
      RegisteredIffNamed(category);
      Lookup(tables, category, key, default)
    }

    /** `update_setting(category, key, value)`: true exactly when the category is registered. */
    method Update(category: string, key: string, value: Value) returns (ok: bool)
      requires Valid()
      modifies this
      ensures Valid()
      ensures ok <==> CategoryNamed(category).Some?
      ensures ok ==> tables == Store(old(tables), CategoryNamed(category).value, key, value)
      ensures !ok ==> tables == old(tables)
    {
      var registered := CategoryNamed(category);
      if registered.Some? {
        var c := registered.value;
        tables := tables[c := tables[c][key := value]];
        ok := true;
      } else {
        ok := false;
      }
    }

    /**
     * `validate_settings()`, with the existence of the database directory as
     * an input. Reads the tables and changes nothing.
     */
    method Validate(dbDirExists: bool) returns (r: Result<seq<Problem>, SettingsError>)
      requires Valid()
      ensures r.Err? <==> NonNumericKey(tables).Some?
      ensures r.Err? ==> r.error == TypeError(NonNumericKey(tables).value)
      ensures r.Ok? ==> InCheckOrder(r.value)
      ensures r.Ok? ==> (DbDirMissing in r.value <==> !dbDirExists)
      ensures r.Ok? ==> (DetectionRange in r.value <==> !ThresholdOk(tables[Detection][ConfidenceThreshold]))
      ensures r.Ok? ==> (OcrRange in r.value <==> !ThresholdOk(tables[Ocr][MinConfidence]))
      ensures r.Ok? ==> (FpsNotPositive in r.value <==> !FpsOk(tables[Camera][DefaultFps]))
      ensures r.Ok? ==> (r.value == [] <==>
        && dbDirExists
        && ThresholdOk(tables[Detection][ConfidenceThreshold])
        && ThresholdOk(tables[Ocr][MinConfidence])
        && FpsOk(tables[Camera][DefaultFps]))
      ensures r.Ok? ==> r.value == Reports(
        !dbDirExists,
        !ThresholdOk(tables[Detection][ConfidenceThreshold]),
        !ThresholdOk(tables[Ocr][MinConfidence]),
        !FpsOk(tables[Camera][DefaultFps]))
    {
      var confidence, minConfidence, fps :=
        tables[Detection][ConfidenceThreshold], tables[Ocr][MinConfidence], tables[Camera][DefaultFps];
      r := CheckValues(dbDirExists, confidence, minConfidence, fps);
      ReportsMeaning(!dbDirExists, !ThresholdOk(confidence), !ThresholdOk(minConfidence), !FpsOk(fps));
    }

    /**
     * `validate_settings()` as the program returns it: the messages of the
     * problems found, in check order.
     */
    method ValidateSettings(dbDirExists: bool) returns (r: Result<seq<string>, SettingsError>)
      requires Valid()
      ensures r.Err? <==> NonNumericKey(tables).Some?
      ensures r.Err? ==> r.error == TypeError(NonNumericKey(tables).value)
      ensures r.Ok? ==> r.value == Messages(Reports(
        !dbDirExists,
        !ThresholdOk(tables[Detection][ConfidenceThreshold]),
        !ThresholdOk(tables[Ocr][MinConfidence]),
        !FpsOk(tables[Camera][DefaultFps])))
      ensures r.Ok? ==> (Message(DbDirMissing) in r.value <==> !dbDirExists)
      ensures r.Ok? ==> (Message(DetectionRange) in r.value <==> !ThresholdOk(tables[Detection][ConfidenceThreshold]))
      ensures r.Ok? ==> (Message(OcrRange) in r.value <==> !ThresholdOk(tables[Ocr][MinConfidence]))
      ensures r.Ok? ==> (Message(FpsNotPositive) in r.value <==> !FpsOk(tables[Camera][DefaultFps]))
    {
      var found := Validate(dbDirExists);
      match found
      case Err(e) =>
        r := Err(e);
      case Ok(problems) =>
        MessageListedIff(problems, DbDirMissing);
        MessageListedIff(problems, DetectionRange);
        MessageListedIff(problems, OcrRange);
        MessageListedIff(problems, FpsNotPositive);
        r := Ok(Messages(problems));
    }
  }

  /**
   * The list `validate_settings` builds, given which checks fail: one problem
   * per failing check, appended in check order.
   */
  function Reports(dbDirMissing: bool, detectionOut: bool, ocrOut: bool, fpsOut: bool): seq<Problem> {
    Flag(DbDirMissing, dbDirMissing) + Flag(DetectionRange, detectionOut)
    + Flag(OcrRange, ocrOut) + Flag(FpsNotPositive, fpsOut)
  }

  /** The report lists problems in check order: database, detection, OCR, FPS. */
  lemma ReportsInCheckOrder(dbDirMissing: bool, detectionOut: bool, ocrOut: bool, fpsOut: bool)
    ensures InCheckOrder(Reports(dbDirMissing, detectionOut, ocrOut, fpsOut))
  {
    var s0: seq<Problem> := [];
    AppendInCheckOrder(s0, DbDirMissing, dbDirMissing);
    var s1 := s0 + Flag(DbDirMissing, dbDirMissing);
    assert s1 == Flag(DbDirMissing, dbDirMissing);
    AppendInCheckOrder(s1, DetectionRange, detectionOut);
    var s2 := s1 + Flag(DetectionRange, detectionOut);
    AppendInCheckOrder(s2, OcrRange, ocrOut);
    var s3 := s2 + Flag(OcrRange, ocrOut);
    AppendInCheckOrder(s3, FpsNotPositive, fpsOut);
  }

  /**
   * What the report means: each problem is listed exactly when its check
   * fails, in check order, and the list is empty exactly when every check passes.
   */
  lemma ReportsMeaning(dbDirMissing: bool, detectionOut: bool, ocrOut: bool, fpsOut: bool)
    ensures InCheckOrder(Reports(dbDirMissing, detectionOut, ocrOut, fpsOut))
    ensures DbDirMissing in Reports(dbDirMissing, detectionOut, ocrOut, fpsOut) <==> dbDirMissing
    ensures DetectionRange in Reports(dbDirMissing, detectionOut, ocrOut, fpsOut) <==> detectionOut
    ensures OcrRange in Reports(dbDirMissing, detectionOut, ocrOut, fpsOut) <==> ocrOut
    ensures FpsNotPositive in Reports(dbDirMissing, detectionOut, ocrOut, fpsOut) <==> fpsOut
    ensures Reports(dbDirMissing, detectionOut, ocrOut, fpsOut) == [] <==>
      !dbDirMissing && !detectionOut && !ocrOut && !fpsOut
  {
    ReportsInCheckOrder(dbDirMissing, detectionOut, ocrOut, fpsOut);
  }

  /**
   * The checks of `validate_settings` on the three values it reads, in order:
   * the database directory, the detection threshold, the OCR threshold and
   * the frame rate. A value that is not a number stops the checks with a
   * TypeError, losing the messages gathered so far.
   */
  method CheckValues(dbDirExists: bool, confidence: Value, minConfidence: Value, fps: Value)
    returns (r: Result<seq<Problem>, SettingsError>)
    ensures r.Err? <==> AsNumber(confidence).None? || AsNumber(minConfidence).None? || AsNumber(fps).None?
    ensures r.Err? ==> r.error == TypeError(
      if AsNumber(confidence).None? then ConfidenceThreshold
      else if AsNumber(minConfidence).None? then MinConfidence
      else DefaultFps)
    ensures r.Ok? ==> r.value == Reports(
      !dbDirExists, !ThresholdOk(confidence), !ThresholdOk(minConfidence), !FpsOk(fps))
  {
    var errors: seq<Problem> := [];
    if !dbDirExists {
      errors := errors + [DbDirMissing];
    }
    var c := AsNumber(confidence);
    if c.None? {
      return Err(TypeError(ConfidenceThreshold));
    }
    if !(0.0 <= c.value <= 1.0) {
      errors := errors + [DetectionRange];
    }
    var m := AsNumber(minConfidence);
    if m.None? {
      return Err(TypeError(MinConfidence));
    }
    if !(0.0 <= m.value <= 1.0) {
      errors := errors + [OcrRange];
    }
    var f := AsNumber(fps);
    if f.None? {
      return Err(TypeError(DefaultFps));
    }
    if f.value <= 0.0 {
      errors := errors + [FpsNotPositive];
    }
    return Ok(errors);
  }

  /** A category outside the ten registered names yields the supplied default. */
  lemma LookupUnregistered(t: Tables, category: string, key: string, default: Value)
    requires forall c: Category :: CategoryName(c) != category
    ensures Lookup(t, category, key, default) == default
  {
    RegisteredIffNamed(category);
  }

  /** A registered category yields the stored value when the key is present, the default otherwise. */
  lemma LookupRegistered(t: Tables, c: Category, key: string, default: Value)
    requires WellFormed(t)
    ensures key in t[c] ==> Lookup(t, CategoryName(c), key, default) == t[c][key]
    ensures key !in t[c] ==> Lookup(t, CategoryName(c), key, default) == default
  {
    CategoryNameRoundTrip(c);
  }

  /** Reading back an entry just written gives the written value, whatever the default. */
  lemma LookupAfterStore(t: Tables, c: Category, key: string, value: Value, default: Value)
    requires WellFormed(t)
    ensures Lookup(Store(t, c, key, value), CategoryName(c), key, default) == value
  {
    CategoryNameRoundTrip(c);
  }

  /** A write touches one entry of one category: every other (category, key) reads as before. */
  lemma StoreFrame(t: Tables, c: Category, key: string, value: Value,
                   category': string, key': string, default: Value)
    requires WellFormed(t)
    requires category' != CategoryName(c) || key' != key
    ensures Lookup(Store(t, c, key, value), category', key', default)
         == Lookup(t, category', key', default)
  {
    RegisteredIffNamed(category');
  }

  /** A write keeps the ten categories, adds at most the written key, and keeps the keys the validator reads. */
  lemma StorePreservesShape(t: Tables, c: Category, key: string, value: Value)
    requires WellFormed(t)
    ensures WellFormed(Store(t, c, key, value))
    ensures Store(t, c, key, value)[c].Keys == t[c].Keys + {key}
  {
  }

  /** The shipped tables are well formed and pass every numeric check (0.5, 0.3 and 30). */
  lemma ShippedDefaultsPass()
    ensures WellFormed(Defaults())
    ensures NonNumericKey(Defaults()) == None
    ensures ThresholdOk(Defaults()[Detection][ConfidenceThreshold])
    ensures ThresholdOk(Defaults()[Ocr][MinConfidence])
    ensures FpsOk(Defaults()[Camera][DefaultFps])
  {
    forall c: Category
      ensures c in Defaults()
    {
      match c
      case Camera =>
      case Detection =>
      case Ocr =>
      case Database =>
      case Gui =>
      case Logging =>
      case Performance =>
      case Validation =>
      case Export =>
      case Development =>
    }
  }

  /** A fresh registry with an existing database directory validates with no errors. */
  method ShippedDefaultsValidateClean() returns (r: Result<seq<string>, SettingsError>)
    ensures r == Ok([])
  {
    var registry := new Registry();
    ShippedDefaultsPass();
    r := registry.ValidateSettings(true);
    ReportsMeaning(false, false, false, false);
  }
}

=== FILE: wrappers.dfy ===
/** Option and Result values shared by the settings and logger models. */
module Wrappers {

  datatype Option<+T> = None | Some(value: T)

  /** The outcome of an operation that raises an exception in the Python program. */
  datatype Result<+R, +E> = Ok(value: R) | Err(error: E)
}
